=== FILE: README.md ===
# oom_score_adj listener — a Dafny model

superlance's `oom_score_adj` is a supervisor event listener. It sets the kernel's
out-of-memory priority of supervised processes as soon as they reach the RUNNING
state. Its core has two parts:

- the per-event step of `OOMScoreAdj.runforever`;
- the option loop of `main`, which builds the listener's configuration.

This project models both parts as pure functions and proves what they promise.

- `Wrappers` (`wrappers.dfy`): `Option` and `Result`.
- `Sequences` (`sequences.dfy`): the associativity of concatenation, as a named proof step.
- `Decimal` (`decimal.dfy`): Python's decimal rendering of an `int` (`'%s' % score`) and a strict decimal parser. The parser is used to state that the rendering reads back.
- `Listener` (`listener.dfy`):
  - the configuration (selection list, any-flag, score) and the decoded event (header and payload maps);
  - the actions of one loop iteration: `WriteFile(path, content)` is an attempted write of the priority file, `Diag(line)` is a line on stderr, and `Ack` is the `OK` acknowledgement on stdout;
  - `Handle` is one iteration. A lookup of a missing key raises `KeyError` in the program; here it is the result `Failure(MissingKey(..))`;
  - `Run` folds `Handle` over a finite sequence of deliveries. It stops after one event in test mode, and at the first fault.
- `Startup` (`startup.dfy`):
  - `FoldOptions` is the option loop of `main`, working on the (name, value) pairs that `getopt` returns;
  - `Main` adds the check for the supervisor environment;
  - `ProgramValues`, `AnyGiven` and `LastScoreValue` are independent reference definitions that the fold is proved against.
- `Scenarios` (`scenarios.dfy`): the cases of the unit tests and the sample invocation from the usage text, stated as lemmas about the model.

Behaviour of the program worth noting:

- A failed write emits two stderr lines: the "could not set" line, then the usual confirmation line. It does not emit a single line.
- For a skipped event in test mode, the acknowledgement comes before the note on stderr.
- Outside supervisor, `main` writes its message and returns normally. It does not exit with an error status, so `NotUnderSupervisor` carries only the line.
- A help option ends the loop at once (`usage(0)` exits). It is honoured before any later option and before the environment check.

## Model

| member | source | states |
|---|---|---|
| Listener.Handle | superlance/oom_score_adj.py:74-118 | One iteration succeeds exactly when every key it looks up is present. When it succeeds it acknowledges exactly once, and it writes one priority file exactly when the event is a running event of a selected process, and none otherwise. |
| Listener.Run | superlance/oom_score_adj.py:75-118 | The `while 1` loop over a finite sequence of deliveries. Its properties are stated by `RunCounts`, `RunAppend`, `RunFaultIffUndecodable`, `RunStopsAtFirstFault`, `RunTestModeStopsAfterOne` and `RepeatedEventRepeatsActions`. |
| Listener.Selected | superlance/oom_score_adj.py:94-95 | The selection test: the any-flag, or the bare name, or `group:name` in the list. `AnyOverridesPrograms`, `QualifiedEntrySelectsOnlyItsGroup` and `Scenarios.ColonInProcessNameMatchesBare` state what it accepts. |
| Listener.ProcPath | superlance/oom_score_adj.py:105 | The path of a pid's priority file. `ProcPathNamesPid` states its shape and that the pid can be read back from it. |
| Listener.ScoreContent | superlance/oom_score_adj.py:106 | What is written into the priority file. `ScoreContentReadsBack` states that it is one line that parses back to the score. |
| Listener.SetLine | superlance/oom_score_adj.py:111-113 | The confirmation line. `SetLineDeterminesFields` states that it determines process name and score. |
| Listener.FailLine | superlance/oom_score_adj.py:108-109 | The line for a failed write. `FailLineDeterminesFields` and `FailLineIsNotSetLine` state its properties. |
| Listener.FailLineDeterminesFields | superlance/oom_score_adj.py:108-109 | For process names without ':', two failure lines are equal exactly when they name the same process and the same pid. |
| Listener.FailLineIsNotSetLine | superlance/oom_score_adj.py:108-113 | A failure line starts with 'c' and a confirmation line with 's', so the two stderr lines of a failed write never coincide. |
| Listener.Skip | superlance/oom_score_adj.py:81-101 | A skipped event produces one acknowledgement and no write. The acknowledgement comes first, and the stderr text is the given note in test mode and empty otherwise. |
| Listener.Adjust | superlance/oom_score_adj.py:103-116 | A selected process gets exactly one write: its score goes to its pid's priority file, and that write attempt comes first. The failure line follows only when the write failed, then the confirmation line, then the single acknowledgement, which is last. There are three actions, or four after a failed write. |
| Listener.NonRunningOnlyAcks | superlance/oom_score_adj.py:81-88 | A non-RUNNING event never fails. It is acknowledged with no write, and in test mode only "non-running event" goes to stderr. The result is independent of the payload and of the write outcome. |
| Listener.NonMatchingOnlyAcks | superlance/oom_score_adj.py:94-101 | A running event of an unselected process is acknowledged with no write, and in test mode only "non-matching process" goes to stderr. Its pid is never read: removing the pid from the payload changes nothing. |
| Listener.SelectedWritesScore | superlance/oom_score_adj.py:103-118 | A running event of a selected process writes the score as `<score>\n` to `/proc/<pid>/oom_score_adj`. The write attempt is the first action. On failure the could-not line comes next, and the confirmation line always follows. The confirmation line is directly followed by the acknowledgement, which is last. The test flag does not change it. |
| Listener.AnyOverridesPrograms | superlance/oom_score_adj.py:94 | With the any-flag set, the result is the same for every selection list, including the empty one. Every decodable running event is targeted. |
| Listener.QualifiedNameSplits | superlance/oom_score_adj.py:95 | Two `group:process` names whose group parts are colon-free are equal exactly when both group and process agree. |
| Listener.QualifiedEntrySelectsOnlyItsGroup | superlance/oom_score_adj.py:94-95 | The single entry `g:n` (colon-free names) selects a process exactly when the process is `n` in group `g`. The same name in another group is not selected. |
| Listener.ProcPathNamesPid | superlance/oom_score_adj.py:105 | The priority file path is `/proc/` then the pid then `/oom_score_adj`. The pid can be read back from it, so distinct pids get distinct files. |
| Listener.ScoreContentReadsBack | superlance/oom_score_adj.py:106 | The written content is one line ending in a newline, and its text parses back to the configured score. |
| Listener.SetLineDeterminesFields | superlance/oom_score_adj.py:111-113 | Two confirmation lines are equal exactly when they name the same process and the same score. |
| Listener.RunCounts | superlance/oom_score_adj.py:75-118 | A run that raises nothing acknowledges every delivered event once. It performs exactly as many writes as there are events targeting a selected process. |
| Listener.RunAppend | superlance/oom_score_adj.py:75-101 | Once a prefix of deliveries raises nothing, running prefix and suffix together gives the prefix's actions followed by the suffix's run. No state carries over between events. |
| Listener.RunFaultIffUndecodable | superlance/oom_score_adj.py:81-103 | Outside test mode a run raises exactly when some delivered event lacks a key that the handler reads. |
| Listener.RunStopsAtFirstFault | superlance/oom_score_adj.py:78-103 | The run ends with the fault of the first event that lacks a key, after acknowledging exactly the events before it. |
| Listener.RunTestModeStopsAfterOne | superlance/oom_score_adj.py:84-118 | In test mode only the first event is handled, whatever follows. The run is that event's actions, or the fault its handling raised. It raises exactly when the first event lacks a key that the handler reads, and otherwise it is acknowledged once. |
| Listener.RepeatedEventRepeatsActions | superlance/oom_score_adj.py:75-118 | The same event delivered twice is handled twice identically: there is no deduplication. |
| Decimal.IntToString | superlance/oom_score_adj.py:106 | The rendering starts with '-' exactly for negative scores. After the sign come only digits, with no leading zero. |
| Decimal.ParseIntToString | superlance/oom_score_adj.py:106 | Every integer is recovered from its decimal rendering. |
| Decimal.IntToStringInjective | superlance/oom_score_adj.py:111-113 | Distinct scores render differently. |
| Startup.Main | superlance/oom_score_adj.py:154-161 | The listener is started only under supervisor. When it refuses to start, it is outside supervisor and the refusal is the one line "oom_score_adj must be run as a supervisor event listener"; `MainStartsFolded` states that a completed option loop outside supervisor always refuses, `MainListensIff` states exactly when it starts, and `BadScoreEndsMain` states that a rejected score ends it. |
| Startup.MainStartsFolded | superlance/oom_score_adj.py:135-161 | When no option asks for help and every score converts, `main` under supervisor starts the listener with every program value in order, the any-flag exactly when `-a`/`--any` occurs, and the `int()` of the last score value or -1000. Outside supervisor it refuses with its one line. |
| Startup.FoldOptions | superlance/oom_score_adj.py:139-152 | The option loop. `FoldCompletes`, `FoldHelpAt`, `FoldBadScoreAt`, `FoldAppendsPrograms`, `FoldSetsAny` and `FoldKeepsLastScore` state its result against the reference definitions `ProgramValues`, `AnyGiven` and `LastScoreValue`. |
| Startup.StepConfig | superlance/oom_score_adj.py:145-152 | One option applied to the configuration. The fold lemmas above state its cumulative effect. |
| Startup.FoldCompletes | superlance/oom_score_adj.py:139-152 | The option loop completes exactly when no option asks for help and `int()` accepts every score value. |
| Startup.FoldAppendsPrograms | superlance/oom_score_adj.py:145-146 | A completed loop appends every `-p`/`--program` value to the list, in command-line order and nothing else. |
| Startup.FoldSetsAny | superlance/oom_score_adj.py:148-149 | A completed loop sets the any-flag exactly when some option is `-a`/`--any`, or when it was already set. |
| Startup.FoldKeepsLastScore | superlance/oom_score_adj.py:151-152 | The score after the loop is the `int()` of the last `-s`/`--score` value. When there is none, it is the starting score. |
| Startup.MainDefaults | superlance/oom_score_adj.py:135-137 | Without options the listener starts with an empty list, no any-flag and score -1000. Outside supervisor it does not start. |
| Startup.HelpBeforeEnvironment | superlance/oom_score_adj.py:139-158 | When `int()` accepts every score value before the first help option, `main` shows usage, whatever options follow it and whether or not it runs under supervisor. |
| Startup.FoldBadScoreAt | superlance/oom_score_adj.py:139-152 | The first score value that `int()` rejects ends the loop with that value, once no help option precedes it and every earlier score converts. Later options are never looked at. |
| Startup.MainListensIff | superlance/oom_score_adj.py:135-161 | `main` starts the listener exactly when it runs under supervisor, no option asks for help, and `int()` accepts every score value. |
| Startup.BadScoreEndsMain | superlance/oom_score_adj.py:151-152 | A score value that `int()` rejects ends `main` with that value in either environment, and no listener starts. |
| Startup.FoldHelpAt | superlance/oom_score_adj.py:139-143 | The option loop ends with a help request at the first help option, once every score value before it converts; later options, including unconvertible scores, are never looked at. |
| Scenarios.NotProcessStateRunning | superlance/tests/oom_score_adj_test.py:29-38 | A PROCESS_STATE_STARTED event in test mode gives one acknowledgement, no write, and exactly "non-running event\n" on stderr. |
| Scenarios.WrongProcess | superlance/tests/oom_score_adj_test.py:40-54 | With only "foo" selected, process bar is skipped: one acknowledgement and exactly "non-matching process\n". |
| Scenarios.WrongGroupProcess | superlance/tests/oom_score_adj_test.py:56-70 | The entry "group1:bar" does not select bar in group2: one acknowledgement and exactly "non-matching process\n". |
| Scenarios.AllProcesses | superlance/tests/oom_score_adj_test.py:72-87 | With the any-flag and an empty list, bar's file `/proc/-64444/oom_score_adj` gets "-1000\n". Stderr ends with the confirmation line, and there is one acknowledgement. |
| Scenarios.MatchingProcess | superlance/tests/oom_score_adj_test.py:89-104 | The bare entry "bar" selects bar: one write of "-1000\n", the confirmation line, and one acknowledgement. |
| Scenarios.MatchingGroupProcess | superlance/tests/oom_score_adj_test.py:106-121 | The entry "group1:bar" selects bar in group1: one write of "-1000\n", the confirmation line, and one acknowledgement. |
| Scenarios.CustomScore | superlance/tests/oom_score_adj_test.py:123-139 | Score -100 is written as "-100\n". With the write to pid -64444 failing, stderr is exactly the could-not line and then "set oom_score_adj for process foo to -100\n". |
| Scenarios.ColonInProcessNameMatchesBare | superlance/oom_score_adj.py:94-95 | A process whose own name is "group1:bar" is selected by that entry in any group, through the bare-name test. |
| Scenarios.SampleInvocation | superlance/oom_score_adj.py:51-53 | `-p program1 -p group1:program2 -s -500` under supervisor starts the listener with those two entries, no any-flag and score -500. |

## Left out

- The listener protocol framing (`READY`, `RESULT 2\nOK`) and the reading of headers and payload from stdin. These belong to supervisor's `childutils`, which is not part of this model. Events arrive already decoded as two maps, and `Ack` stands for the `OK` result.
- File I/O. `WriteFile` records the attempted open-and-write. Whether it succeeds is the input `writeSucceeds`/`writeOk`, since it depends on the operating system. Only a failure of the write itself is modelled, which is the `IOError` the program catches.
- Flushing of stderr, and stream identity (the `stdin`/`stdout`/`stderr` attributes): they have no effect on the content that is written.
- The endless loop. `Run` consumes a finite sequence of deliveries, and the end of the sequence stands for the listener blocking on its next read.
- `getopt` and its error path (`usage()` with status 255). `Main` receives the pairs `getopt` returns. The short-option string `"hp:a:s:"` declares `-a` as taking a value, although the usage text shows it as a flag. What `getopt` then does with `-a` is outside the model: the fold sees whatever pair `getopt` produced.
- Python's `int()` is the parameter `toInt`, because its full grammar (whitespace, underscores, Unicode digits) is a library matter. The scenarios instantiate it with `Decimal.ParseDecimal`.
- The usage text itself and the process exit status. `ShowUsage` stands for printing the text and exiting 0, and `ScoreError` stands for the `ValueError` that ends `main`.
- The `SUPERVISOR_SERVER_URL` environment lookup is the boolean `underSupervisor`.
- Python truthiness of `any`: the tests pass `None` for false, and the model uses `bool`.
- Listener.FailLineDeterminesFields: requires a process name without ':'. With a colon in the name, the process and pid parts of the line are ambiguous ("a:b" with pid "c" and "a" with pid "b:c" give the same line).
- Listener.QualifiedEntrySelectsOnlyItsGroup: requires group and process names without ':'. With a colon in a process name, the bare-name test can match a qualified entry, as `Scenarios.ColonInProcessNameMatchesBare` shows.

=== FILE: decimal.dfy ===
/**
  Decimal rendering of integers, as Python's `str()` / `'%s' %` produce it for an
  `int`: an optional minus sign followed by the digits, most significant first,
  without leading zeros. A strict parser is given as its partner, so that what the
  listener writes can be read back.
 */
module Decimal {
  import opened Wrappers

  predicate IsDigit(c: char) {
    '0' <= c <= '9'
  }

  predicate AllDigits(s: string) {
    forall i | 0 <= i < |s| :: IsDigit(s[i])
  }

  function DigitChar(d: nat): (c: char)
    requires d < 10
    ensures IsDigit(c)
    ensures DigitValue(c) == d
  {
    ('0' as int + d) as char
  }

  function DigitValue(c: char): (d: nat)
    requires IsDigit(c)
    ensures d < 10
  {
    c as int - '0' as int
  }

  /** The digits of `n`, most significant first; "0" is the only rendering that starts with '0'. */
  function NatToString(n: nat): (s: string)
    ensures |s| >= 1
    ensures AllDigits(s)
    ensures s[0] == '0' <==> n == 0
    ensures n == 0 ==> |s| == 1
    decreases n
  {
    if n < 10 then [DigitChar(n)] else NatToString(n / 10) + [DigitChar(n % 10)]
  }

  /** Python's rendering of an `int`: a '-' exactly for negative values, then the digits of the magnitude. */
  function IntToString(i: int): (s: string)
    ensures |s| >= 1
    ensures s[0] == '-' <==> i < 0
    ensures i >= 0 ==> AllDigits(s) && (s[0] == '0' <==> i == 0)
    ensures i == 0 ==> s == "0"
    ensures i < 0 ==> |s| >= 2 && AllDigits(s[1..]) && s[1] != '0'
  {
    if i < 0 then "-" + NatToString(-i) else NatToString(i)
  }

  /** The value of a string of digits, most significant first. */
  function ParseDigits(s: string): nat
    requires AllDigits(s)
    decreases |s|
  {
    if |s| == 0 then 0 else 10 * ParseDigits(s[..|s| - 1]) + DigitValue(s[|s| - 1])
  }

  /**
    A strict decimal parser: an optional '+' or '-' followed by at least one ASCII
    digit and nothing else. Every string it accepts is also accepted by Python's
    `int()`, with the same value.
   */
  function ParseDecimal(s: string): Option<int> {
    if |s| > 0 && (s[0] == '-' || s[0] == '+') then
      var body := s[1..];
      if |body| > 0 && AllDigits(body) then
        var magnitude: int := ParseDigits(body);
        Some(if s[0] == '-' then -magnitude else magnitude)
      else
        None
    else if |s| > 0 && AllDigits(s) then
      Some(ParseDigits(s))
    else
      None
  }

  /** Reading the digits of `n` back yields `n`. */
  lemma {:induction false} ParseNatToString(n: nat)
    ensures ParseDigits(NatToString(n)) == n
    decreases n
  {
    if n >= 10 {
      var p := NatToString(n / 10);
      var s := NatToString(n);
      assert s == p + [DigitChar(n % 10)];
      assert s[..|s| - 1] == p;
      ParseNatToString(n / 10);
    }
  }

  /** Round trip: the parser recovers every integer from its rendering. */
  lemma ParseIntToString(i: int)
    ensures ParseDecimal(IntToString(i)) == Some(i)
  {
    var s := IntToString(i);
    if i < 0 {
      var body := NatToString(-i);
      assert s == "-" + body;
      assert s[1..] == body;
      ParseNatToString(-i);
      assert ParseDecimal(s) == Some(-(ParseDigits(body) as int));
    } else {
      ParseNatToString(i);
    }
  }

  /** A rendering holds only digits and a leading '-'. */
  lemma IntToStringAlphabet(i: int)
    ensures forall k | 0 <= k < |IntToString(i)| :: IsDigit(IntToString(i)[k]) || (k == 0 && i < 0)
  {
    var t := IntToString(i);
    if i < 0 {
      forall k | 1 <= k < |t|
        ensures IsDigit(t[k])
      {
        assert t[k] == t[1..][k - 1];
      }
    }
  }

  /** Distinct integers render differently. */
  lemma IntToStringInjective(i: int, j: int)
    ensures IntToString(i) == IntToString(j) ==> i == j
  {
    ParseIntToString(i);
    ParseIntToString(j);
  }
}

=== FILE: listener.dfy ===
/**
  The `OOMScoreAdj` event listener of superlance: for every PROCESS_STATE_RUNNING
  event about a selected supervisor child it writes the configured OOM score
  adjustment into `/proc/<pid>/oom_score_adj`, and it acknowledges every event.

  One loop iteration is the pure function `Handle`: it receives an event whose
  header and payload have already been decoded into maps, the test flag and the
  outcome of the write, and returns the actions the listener performs, in order.
  The endless loop is the fold `Run` over a finite sequence of deliveries.
 */
module Listener {
  import opened Wrappers
  import Decimal
  import Sequences

  /** Fixed at startup: the selection list, the any-flag and the adjustment value. */
  datatype Config = Config(programs: seq<string>, any: bool, score: int)

  /** A decoded event: the outer header fields and the fields of its payload. */
  datatype Event = Event(headers: map<string, string>, payload: map<string, string>)

  /** What one iteration does, in order: a write to a kernel file, a line on stderr, an acknowledgement on stdout. */
  datatype Action = WriteFile(path: string, content: string) | Diag(line: string) | Ack

  /** The map a lookup went to. */
  datatype Origin = Header | Payload

  /** A lookup of an absent key raises and ends the listener. */
  datatype Fault = MissingKey(origin: Origin, key: string)

  /** An event together with whether opening and writing its priority file succeeds. */
  datatype Delivery = Delivery(event: Event, writeSucceeds: bool)

  /** The actions of a run, and the fault that ended it, if any. */
  datatype Trace = Trace(actions: seq<Action>, fault: Option<Fault>)

  const EventNameKey := "eventname"
  const ProcessNameKey := "processname"
  const GroupNameKey := "groupname"
  const PidKey := "pid"
  const RunningEvent := "PROCESS_STATE_RUNNING"

  const NonRunningNote := "non-running event\n"
  const NonMatchingNote := "non-matching process\n"

  const SetLead := "set oom_score_adj for process "
  const FailLead := "could not set oom_score_adj for process "

  const ProcPrefix := "/proc/"
  const ProcSuffix := "/oom_score_adj"

  // ---------------------------------------------------------------------------
  // Formats

  /** The `group:process` form of a process name. */
  function QualifiedName(gname: string, pname: string): string {
    gname + ":" + pname
  }

  /** The kernel priority file of a process. */
  function ProcPath(pid: string): string {
    ProcPrefix + pid + ProcSuffix
  }

  /** What is written into the priority file: the score in decimal, then a newline. */
  function ScoreContent(score: int): string {
    Decimal.IntToString(score) + "\n"
  }

  /** The confirmation line written for every selected running event. */
  function SetLine(pname: string, score: int): string {
    SetLead + (pname + " to " + Decimal.IntToString(score) + "\n")
  }

  /** The extra line written when the priority file could not be written. */
  function FailLine(pname: string, pid: string): string {
    FailLead + pname + ":" + pid + "\n"
  }

  // ---------------------------------------------------------------------------
  // Selection

  /** A process is acted on when the any-flag is set, or its bare or group-qualified name is listed. */
  predicate Selected(cfg: Config, pname: string, gname: string) {
    cfg.any || pname in cfg.programs || QualifiedName(gname, pname) in cfg.programs
  }

  predicate IsRunning(ev: Event) {
    EventNameKey in ev.headers && ev.headers[EventNameKey] == RunningEvent
  }

  /** A running event whose payload names a process the configuration selects. */
  predicate Targets(cfg: Config, ev: Event) {
    && IsRunning(ev)
    && ProcessNameKey in ev.payload
    && GroupNameKey in ev.payload
    && Selected(cfg, ev.payload[ProcessNameKey], ev.payload[GroupNameKey])
  }

  /** Every key the handler looks up on its way through `ev` is present. */
  predicate Decodable(cfg: Config, ev: Event) {
    && EventNameKey in ev.headers
    && (IsRunning(ev) ==> ProcessNameKey in ev.payload && GroupNameKey in ev.payload)
    && (Targets(cfg, ev) ==> PidKey in ev.payload)
  }

  // ---------------------------------------------------------------------------
  // Views of an action sequence: the acknowledgements on stdout, the text on
  // stderr and the kernel writes.

  function Acks(acts: seq<Action>): nat {
    if |acts| == 0 then 0 else (if acts[0].Ack? then 1 else 0) + Acks(acts[1..])
  }

  function Stderr(acts: seq<Action>): string {
    if |acts| == 0 then "" else (if acts[0].Diag? then acts[0].line else "") + Stderr(acts[1..])
  }

  function Writes(acts: seq<Action>): seq<Action> {
    if |acts| == 0 then [] else (if acts[0].WriteFile? then [acts[0]] else []) + Writes(acts[1..])
  }

  lemma ViewsOne(x: Action)
    ensures Acks([x]) == (if x.Ack? then 1 else 0)
    ensures Stderr([x]) == (if x.Diag? then x.line else "")
    ensures Writes([x]) == (if x.WriteFile? then [x] else [])
  {
    assert [x][1..] == [];
  }

  lemma ViewsAppend(a: seq<Action>, b: seq<Action>)
    ensures Acks(a + b) == Acks(a) + Acks(b)
    ensures Stderr(a + b) == Stderr(a) + Stderr(b)
    ensures Writes(a + b) == Writes(a) + Writes(b)
  {
    if |a| > 0 {
      assert (a + b)[1..] == a[1..] + b;
      ViewsAppend(a[1..], b);
    } else {
      assert a + b == b;
    }
  }

  // ---------------------------------------------------------------------------
  // One iteration

  /** The acknowledgement of an event that is not acted on, followed in test mode by a note saying why. */
  function Skip(test: bool, note: string): (acts: seq<Action>)
    ensures Acks(acts) == 1
    ensures Writes(acts) == []
    ensures Stderr(acts) == (if test then note else "")
    ensures acts[0] == Ack
  {
    var extra := if test then [Diag(note)] else [];
    ViewsOne(Ack);
    ViewsOne(Diag(note));
    ViewsAppend([Ack], extra);
    [Ack] + extra
  }

  /** The actions for a selected process: the write, the failure report if it failed, the confirmation, the acknowledgement. */
  function Adjust(score: int, pname: string, pid: string, writeOk: bool): (acts: seq<Action>)
    ensures Acks(acts) == 1 && acts[|acts| - 1] == Ack
    ensures Writes(acts) == [WriteFile(ProcPath(pid), ScoreContent(score))]
    ensures Stderr(acts) == (if writeOk then "" else FailLine(pname, pid)) + SetLine(pname, score)
    ensures |acts| == (if writeOk then 3 else 4)
    ensures acts[0] == WriteFile(ProcPath(pid), ScoreContent(score))
    ensures !writeOk ==> acts[1] == Diag(FailLine(pname, pid))
    ensures acts[|acts| - 2] == Diag(SetLine(pname, score))
  {
    var write := WriteFile(ProcPath(pid), ScoreContent(score));
    var report := if writeOk then [] else [Diag(FailLine(pname, pid))];
    var confirm := Diag(SetLine(pname, score));
    ViewsOne(write);
    ViewsOne(Diag(FailLine(pname, pid)));
    ViewsOne(confirm);
    ViewsOne(Ack);
    ViewsAppend([confirm], [Ack]);
    ViewsAppend(report, [confirm] + [Ack]);
    ViewsAppend([write], report + ([confirm] + [Ack]));
    [write] + (report + ([confirm] + [Ack]))
  }

  /**
    One iteration of the listener loop. A missing key raises; otherwise the
    event is acknowledged exactly once and the priority file is written exactly
    when the event targets a selected process, whatever the write's outcome.
   */
  function Handle(cfg: Config, ev: Event, test: bool, writeOk: bool): (r: Result<seq<Action>, Fault>)
    ensures r.Success? <==> Decodable(cfg, ev)
    ensures r.Success? ==> Acks(r.value) == 1
    ensures r.Success? ==> |Writes(r.value)| == (if Targets(cfg, ev) then 1 else 0)
  {
    if EventNameKey !in ev.headers then
      Failure(MissingKey(Header, EventNameKey))
    else if ev.headers[EventNameKey] != RunningEvent then
      Success(Skip(test, NonRunningNote))
    else if ProcessNameKey !in ev.payload then
      Failure(MissingKey(Payload, ProcessNameKey))
    else if GroupNameKey !in ev.payload then
      Failure(MissingKey(Payload, GroupNameKey))
    else
      var pname := ev.payload[ProcessNameKey];
      var gname := ev.payload[GroupNameKey];
      if !Selected(cfg, pname, gname) then
        Success(Skip(test, NonMatchingNote))
      else if PidKey !in ev.payload then
        Failure(MissingKey(Payload, PidKey))
      else
        Success(Adjust(cfg.score, pname, ev.payload[PidKey], writeOk))
  }

  // ---------------------------------------------------------------------------
  // The loop

  /**
    The listener loop over the events the supervisor delivers. It stops after
    the first event in test mode, when a lookup raises, and when the input is
    used up (standing for the blocking read of the next event).
   */
  function Run(cfg: Config, ds: seq<Delivery>, test: bool): Trace
    decreases |ds|
  {
    if |ds| == 0 then
      Trace([], None)
    else
      match Handle(cfg, ds[0].event, test, ds[0].writeSucceeds)
      case Failure(f) => Trace([], Some(f))
      case Success(acts) =>
        if test then
          Trace(acts, None)
        else
          var rest := Run(cfg, ds[1..], test);
          Trace(acts + rest.actions, rest.fault)
  }

  /** The number of deliveries whose event targets a selected process. */
  function CountTargets(cfg: Config, ds: seq<Delivery>): nat
    decreases |ds|
  {
    if |ds| == 0 then 0 else (if Targets(cfg, ds[0].event) then 1 else 0) + CountTargets(cfg, ds[1..])
  }

  // ---------------------------------------------------------------------------
  // Properties of one iteration

  /**
    An event that is not PROCESS_STATE_RUNNING is acknowledged and nothing else:
    no write, and in test mode only the note "non-running event". Neither the
    payload nor the write outcome is consulted.
   */
  lemma NonRunningOnlyAcks(cfg: Config, h: map<string, string>, p1: map<string, string>, p2: map<string, string>,
                           test: bool, ok1: bool, ok2: bool)
    requires EventNameKey in h && h[EventNameKey] != RunningEvent
    ensures var r := Handle(cfg, Event(h, p1), test, ok1);
      && r.Success?
      && r == Handle(cfg, Event(h, p2), test, ok2)
      && Acks(r.value) == 1
      && Writes(r.value) == []
      && Stderr(r.value) == (if test then NonRunningNote else "")
  {
  }

  /**
    A running event for a process that is not selected is acknowledged and
    nothing else: no write, and in test mode only the note "non-matching
    process". Its pid is never looked up and the write outcome is not consulted.
   */
  lemma NonMatchingOnlyAcks(cfg: Config, ev: Event, test: bool, writeOk: bool)
    requires IsRunning(ev) && ProcessNameKey in ev.payload && GroupNameKey in ev.payload
    requires !Selected(cfg, ev.payload[ProcessNameKey], ev.payload[GroupNameKey])
    ensures var r := Handle(cfg, ev, test, writeOk);
      && r.Success?
      && r == Handle(cfg, ev.(payload := ev.payload - {PidKey}), test, !writeOk)
      && Acks(r.value) == 1
      && Writes(r.value) == []
      && Stderr(r.value) == (if test then NonMatchingNote else "")
  {
    assert ProcessNameKey != PidKey && GroupNameKey != PidKey;
  }

  /**
    A running event for a selected process writes the score, in decimal and
    newline-terminated, to the priority file of the event's pid, once. A failed
    write adds the "could not set" line and is not fatal; either way the
    confirmation line follows and the last action is the acknowledgement. The
    test flag changes nothing on this path.
   */
  lemma SelectedWritesScore(cfg: Config, ev: Event, test: bool, writeOk: bool)
    requires Targets(cfg, ev) && PidKey in ev.payload
    ensures var r := Handle(cfg, ev, test, writeOk);
      var pname, pid := ev.payload[ProcessNameKey], ev.payload[PidKey];
      && r.Success?
      && r == Handle(cfg, ev, !test, writeOk)
      && Writes(r.value) == [WriteFile(ProcPath(pid), ScoreContent(cfg.score))]
      && Stderr(r.value) == (if writeOk then "" else FailLine(pname, pid)) + SetLine(pname, cfg.score)
      && r.value[0] == WriteFile(ProcPath(pid), ScoreContent(cfg.score))
      && r.value[|r.value| - 2] == Diag(SetLine(pname, cfg.score))
      && r.value[|r.value| - 1] == Ack
  {
  }

  /** The pid can be read back from the path of its priority file, so distinct pids get distinct files. */
  lemma ProcPathNamesPid(pid: string)
    ensures var path := ProcPath(pid);
      && |path| == |ProcPrefix| + |pid| + |ProcSuffix|
      && path[..|ProcPrefix|] == ProcPrefix
      && path[|ProcPrefix|..|path| - |ProcSuffix|] == pid
      && path[|path| - |ProcSuffix|..] == ProcSuffix
  {
  }

  /** What is written into the priority file is one newline-terminated line that parses back to the score. */
  lemma ScoreContentReadsBack(score: int)
    ensures var content := ScoreContent(score);
      && |content| >= 2
      && content[|content| - 1] == '\n'
      && '\n' !in content[..|content| - 1]
      && Decimal.ParseDecimal(content[..|content| - 1]) == Some(score)
  {
    var digits := Decimal.IntToString(score);
    Decimal.ParseIntToString(score);
    assert ScoreContent(score)[..|digits|] == digits;
    Decimal.IntToStringAlphabet(score);
  }

  /** With the any-flag set the selection list is irrelevant: every running event is acted on, even with an empty list. */
  lemma AnyOverridesPrograms(cfg: Config, programs: seq<string>, ev: Event, test: bool, writeOk: bool)
    requires cfg.any
    ensures Handle(cfg, ev, test, writeOk) == Handle(cfg.(programs := programs), ev, test, writeOk)
    ensures IsRunning(ev) && ProcessNameKey in ev.payload && GroupNameKey in ev.payload ==> Targets(cfg, ev)
  {
  }

  /** Of two names without ':' joined to a suffix by ':', the first is recovered from the position of the first colon. */
  lemma {:induction false} QualifiedNameSplits(g1: string, n1: string, g2: string, n2: string)
    requires ':' !in g1 && ':' !in g2
    ensures QualifiedName(g1, n1) == QualifiedName(g2, n2) <==> g1 == g2 && n1 == n2
  {
    var q1, q2 := QualifiedName(g1, n1), QualifiedName(g2, n2);
    if q1 == q2 {
      assert q1[|g1|] == ':' && q2[|g2|] == ':';
      if |g1| < |g2| {
        assert false;
      } else if |g2| < |g1| {
        assert false;
      }
      assert g1 == q1[..|g1|] && g2 == q2[..|g2|];
      assert n1 == q1[|g1| + 1..] && n2 == q2[|g2| + 1..];
    }
  }

  /**
    A qualified entry selects only the process of that name in that group: with
    the single entry `g:n` and no any-flag, a process whose own name and group
    name hold no ':' is selected exactly when it is `n` in group `g`.
   */
  lemma QualifiedEntrySelectsOnlyItsGroup(cfg: Config, g: string, n: string, pname: string, gname: string)
    requires cfg.programs == [QualifiedName(g, n)] && !cfg.any
    requires ':' !in g && ':' !in gname && ':' !in pname
    ensures Selected(cfg, pname, gname) <==> gname == g && pname == n
  {
    QualifiedNameSplits(gname, pname, g, n);
    assert QualifiedName(g, n)[|g|] == ':';
    assert pname != QualifiedName(g, n);
  }

  /** The confirmation line determines the process name and the score it reports. */
  lemma SetLineDeterminesFields(p1: string, s1: int, p2: string, s2: int)
    ensures SetLine(p1, s1) == SetLine(p2, s2) <==> p1 == p2 && s1 == s2
  {
    if SetLine(p1, s1) == SetLine(p2, s2) {
      var t1, t2 := Decimal.IntToString(s1), Decimal.IntToString(s2);
      var x1, x2 := p1 + " to " + t1 + "\n", p2 + " to " + t2 + "\n";
      assert x1 == SetLine(p1, s1)[|SetLead|..];
      assert x2 == SetLine(p2, s2)[|SetLead|..];
      NoSpaceInNumber(s1);
      NoSpaceInNumber(s2);
      SplitAtLastSpace(p1, t1, p2, t2);
      Decimal.IntToStringInjective(s1, s2);
    }
  }

  /**
    The failure line names the process and the pid: for a process name without
    ':', two failure lines are equal exactly when they name the same process and
    pid.
   */
  lemma FailLineDeterminesFields(p1: string, d1: string, p2: string, d2: string)
    requires ':' !in p1 && ':' !in p2
    ensures FailLine(p1, d1) == FailLine(p2, d2) <==> p1 == p2 && d1 == d2
  {
    // The process and pid are joined by ':' exactly as a group and process are.
    assert FailLine(p1, d1) == FailLead + QualifiedName(p1, d1) + "\n";
    assert FailLine(p2, d2) == FailLead + QualifiedName(p2, d2) + "\n";
    if FailLine(p1, d1) == FailLine(p2, d2) {
      var q1, q2 := QualifiedName(p1, d1), QualifiedName(p2, d2);
      assert |q1| == |q2|;
      assert q1 == FailLine(p1, d1)[|FailLead|..|FailLead| + |q1|];
      assert q2 == FailLine(p2, d2)[|FailLead|..|FailLead| + |q2|];
    }
    QualifiedNameSplits(p1, d1, p2, d2);
  }

  /** A failure line is never mistaken for a confirmation line: they differ in their first character. */
  lemma FailLineIsNotSetLine(p1: string, d1: string, p2: string, score: int)
    ensures FailLine(p1, d1)[0] == 'c' && SetLine(p2, score)[0] == 's'
    ensures FailLine(p1, d1) != SetLine(p2, score)
  {
    var rest := p2 + " to " + Decimal.IntToString(score) + "\n";
    assert SetLine(p2, score) == SetLead + rest;
    assert (SetLead + rest)[0] == SetLead[0] == 's';
    assert FailLine(p1, d1) == FailLead + (p1 + ":" + d1 + "\n");
    assert (FailLead + (p1 + ":" + d1 + "\n"))[0] == FailLead[0] == 'c';
  }

  /** `p + " to " + t + "\n"` with no space in `t` is split back into `p` and `t`. */
  lemma SplitAtLastSpace(p1: string, t1: string, p2: string, t2: string)
    requires p1 + " to " + t1 + "\n" == p2 + " to " + t2 + "\n"
    requires ' ' !in t1 && ' ' !in t2
    ensures p1 == p2 && t1 == t2
  {
    var rest := p1 + " to " + t1 + "\n";
    ScoreFollowsLastSpace(rest, p1, t1, p2, t2);
    ScoreFollowsLastSpace(rest, p2, t2, p1, t1);
    assert t1 == rest[|rest| - 1 - |t1|..|rest| - 1];
    assert t2 == rest[|rest| - 1 - |t2|..|rest| - 1];
    assert p1 == rest[..|p1|];
    assert p2 == rest[..|p2|];
  }

  /** In `p + " to " + t + "\n"` with no space in `t`, the space nearest the end comes right before `t`. */
  lemma ScoreFollowsLastSpace(rest: string, p1: string, t1: string, p2: string, t2: string)
    requires rest == p1 + " to " + t1 + "\n" && rest == p2 + " to " + t2 + "\n"
    requires ' ' !in t2
    ensures |t1| >= |t2|
  {
    var start2 := |rest| - 1 - |t2|;
    assert rest[start2..|rest| - 1] == t2;
    forall k | start2 <= k < |rest| - 1
      ensures rest[k] != ' '
    {
      assert rest[k] == t2[k - start2];
    }
    assert rest[|rest| - 2 - |t1|] == ' ';
  }

  lemma NoSpaceInNumber(i: int)
    ensures ' ' !in Decimal.IntToString(i)
  {
    Decimal.IntToStringAlphabet(i);
  }

  // ---------------------------------------------------------------------------
  // Properties of the loop

  /** One step of the loop outside test mode: the first event's actions, then the rest of the run. */
  lemma RunUnfold(cfg: Config, ds: seq<Delivery>)
    requires |ds| > 0
    ensures var h := Handle(cfg, ds[0].event, false, ds[0].writeSucceeds);
      var rest := Run(cfg, ds[1..], false);
      Run(cfg, ds, false) == if h.Success? then Trace(h.value + rest.actions, rest.fault) else Trace([], Some(h.error))
  {
  }

  /**
    Outside test mode a run that raises nothing acknowledges every event once
    and writes one priority file per event that targets a selected process.
   */
  lemma {:induction false} RunCounts(cfg: Config, ds: seq<Delivery>)
    requires Run(cfg, ds, false).fault.None?
    ensures Acks(Run(cfg, ds, false).actions) == |ds|
    ensures |Writes(Run(cfg, ds, false).actions)| == CountTargets(cfg, ds)
    decreases |ds|
  {
    if |ds| > 0 {
      RunUnfold(cfg, ds);
      var h := Handle(cfg, ds[0].event, false, ds[0].writeSucceeds);
      var rest := Run(cfg, ds[1..], false);
      assert h.Success? && rest.fault.None?;
      RunCounts(cfg, ds[1..]);
      ViewsAppend(h.value, rest.actions);
    }
  }

  /** Concatenating delivery sequences concatenates the runs, once the first part raises nothing: no state is kept between events. */
  lemma {:induction false} RunAppend(cfg: Config, ds1: seq<Delivery>, ds2: seq<Delivery>)
    requires Run(cfg, ds1, false).fault.None?
    ensures Run(cfg, ds1 + ds2, false)
         == Trace(Run(cfg, ds1, false).actions + Run(cfg, ds2, false).actions, Run(cfg, ds2, false).fault)
    decreases |ds1|
  {
    if |ds1| == 0 {
      assert ds1 + ds2 == ds2;
    } else {
      var h := Handle(cfg, ds1[0].event, false, ds1[0].writeSucceeds);
      RunUnfold(cfg, ds1);
      assert (ds1 + ds2)[0] == ds1[0];
      assert (ds1 + ds2)[1..] == ds1[1..] + ds2;
      RunUnfold(cfg, ds1 + ds2);
      assert h.Success?;
      var t1, t2, t12 := Run(cfg, ds1[1..], false), Run(cfg, ds2, false), Run(cfg, ds1[1..] + ds2, false);
      assert Run(cfg, ds1, false) == Trace(h.value + t1.actions, t1.fault);
      assert Run(cfg, ds1 + ds2, false) == Trace(h.value + t12.actions, t12.fault);
      assert t1.fault.None?;
      RunAppend(cfg, ds1[1..], ds2);
      assert t12 == Trace(t1.actions + t2.actions, t2.fault);
      Sequences.AppendAssociates(h.value, t1.actions, t2.actions);
    }
  }

  /** Outside test mode the loop raises exactly when some delivered event lacks a key the handler reads. */
  lemma {:induction false} RunFaultIffUndecodable(cfg: Config, ds: seq<Delivery>)
    ensures Run(cfg, ds, false).fault.None? <==> forall i | 0 <= i < |ds| :: Decodable(cfg, ds[i].event)
    decreases |ds|
  {
    if |ds| > 0 {
      RunFaultIffUndecodable(cfg, ds[1..]);
      assert forall i | 1 <= i < |ds| :: ds[i] == ds[1..][i - 1];
    }
  }

  /**
    The first event the handler cannot decode ends the loop with its fault,
    after exactly one acknowledgement for each event before it.
   */
  lemma {:induction false} RunStopsAtFirstFault(cfg: Config, ds: seq<Delivery>, k: nat)
    requires k < |ds|
    requires forall i | 0 <= i < k :: Decodable(cfg, ds[i].event)
    requires !Decodable(cfg, ds[k].event)
    ensures Run(cfg, ds, false).fault == Some(Handle(cfg, ds[k].event, false, ds[k].writeSucceeds).error)
    ensures Acks(Run(cfg, ds, false).actions) == k
    decreases k
  {
    if k > 0 {
      assert forall i | 0 <= i < k - 1 :: ds[1..][i] == ds[i + 1];
      RunStopsAtFirstFault(cfg, ds[1..], k - 1);
      var acts := Handle(cfg, ds[0].event, false, ds[0].writeSucceeds).value;
      ViewsAppend(acts, Run(cfg, ds[1..], false).actions);
    }
  }

  /**
    In test mode the loop handles the first event only, whatever follows it: the
    run is that event's actions, or the fault its handling raised.
   */
  lemma RunTestModeStopsAfterOne(cfg: Config, ds: seq<Delivery>)
    requires |ds| > 0
    ensures Run(cfg, ds, true) == Run(cfg, ds[..1], true)
    ensures var h := Handle(cfg, ds[0].event, true, ds[0].writeSucceeds);
      Run(cfg, ds, true) == if h.Success? then Trace(h.value, None) else Trace([], Some(h.error))
    ensures Run(cfg, ds, true).fault.None? <==> Decodable(cfg, ds[0].event)
    ensures Run(cfg, ds, true).fault.None? ==> Acks(Run(cfg, ds, true).actions) == 1
  {
  }

  /** The same selected event delivered twice is acted on twice, identically: there is no deduplication. */
  lemma RepeatedEventRepeatsActions(cfg: Config, d: Delivery)
    requires Decodable(cfg, d.event)
    ensures var acts := Handle(cfg, d.event, false, d.writeSucceeds).value;
      Run(cfg, [d, d], false) == Trace(acts + acts, None)
  {
    var acts := Handle(cfg, d.event, false, d.writeSucceeds).value;
    assert [d, d][1..] == [d];
    assert [d][1..] == [];
    assert Run(cfg, [d], false) == Trace(acts + [], None);
    assert acts + [] == acts;
  }
}

=== FILE: scenarios.dfy ===
/**
  The cases of the listener's unit tests, stated about the model: one event per
  case, handled in test mode, with the stderr text and the number of
  acknowledgements the tests expect. Each running event of the tests decodes to
  a payload naming a process, its group and pid -64444; the write for that pid
  fails, since no such process exists, and the cases hold either way.
 */
module Scenarios {
  import opened Wrappers
  import opened Listener
  import Decimal
  import Startup

  /** A decoded PROCESS_STATE_RUNNING event whose payload names `pname` in group `gname` with pid -64444. */
  predicate TestRunningEvent(ev: Event, pname: string, gname: string) {
    && IsRunning(ev)
    && ProcessNameKey in ev.payload && ev.payload[ProcessNameKey] == pname
    && GroupNameKey in ev.payload && ev.payload[GroupNameKey] == gname
    && PidKey in ev.payload && ev.payload[PidKey] == "-64444"
  }

  predicate EndsWith(s: string, suffix: string) {
    |suffix| <= |s| && s[|s| - |suffix|..] == suffix
  }

  /** One acknowledgement, no write, and exactly the given stderr text. */
  predicate Skipped(r: Result<seq<Action>, Fault>, stderr: string) {
    r.Success? && Acks(r.value) == 1 && Writes(r.value) == [] && Stderr(r.value) == stderr
  }

  /** One acknowledgement, one write of `content` to pid -64444's file, and stderr ending with `line`. */
  predicate Adjusted(r: Result<seq<Action>, Fault>, content: string, line: string) {
    && r.Success?
    && Acks(r.value) == 1
    && Writes(r.value) == [WriteFile("/proc/-64444/oom_score_adj", content)]
    && EndsWith(Stderr(r.value), line)
  }

  lemma EndsWithAppend(s: string, suffix: string)
    ensures EndsWith(s + suffix, suffix)
  {
    assert (s + suffix)[|s|..] == suffix;
  }

  /** The path, content and confirmation line for pid -64444 of process "bar" with the default score. */
  lemma DefaultScoreStrings()
    ensures ProcPath("-64444") == "/proc/-64444/oom_score_adj"
    ensures ScoreContent(-1000) == "-1000\n"
    ensures SetLine("bar", -1000) == "set oom_score_adj for process bar to -1000\n"
  {
    assert Decimal.NatToString(1000) == "1000";
  }

  lemma NotProcessStateRunning(ev: Event, writeOk: bool)
    requires EventNameKey in ev.headers && ev.headers[EventNameKey] == "PROCESS_STATE_STARTED"
    ensures Skipped(Handle(Config(["foo", "bar", "baz_01"], false, -1000), ev, true, writeOk), "non-running event\n")
  {
    NonRunningOnlyAcks(Config(["foo", "bar", "baz_01"], false, -1000), ev.headers, ev.payload, ev.payload,
                       true, writeOk, writeOk);
  }

  lemma WrongProcess(ev: Event, writeOk: bool)
    requires TestRunningEvent(ev, "bar", "group1")
    ensures Skipped(Handle(Config(["foo"], false, -1000), ev, true, writeOk), "non-matching process\n")
  {
    NonMatchingOnlyAcks(Config(["foo"], false, -1000), ev, true, writeOk);
  }

  lemma WrongGroupProcess(ev: Event, writeOk: bool)
    requires TestRunningEvent(ev, "bar", "group2")
    ensures Skipped(Handle(Config(["group1:bar"], false, -1000), ev, true, writeOk), "non-matching process\n")
  {
    assert QualifiedName("group2", "bar")[5] != "group1:bar"[5];
    NonMatchingOnlyAcks(Config(["group1:bar"], false, -1000), ev, true, writeOk);
  }

  lemma AllProcesses(ev: Event, writeOk: bool)
    requires TestRunningEvent(ev, "bar", "group1")
    ensures Adjusted(Handle(Config([], true, -1000), ev, true, writeOk),
                     "-1000\n", "set oom_score_adj for process bar to -1000\n")
  {
    SelectedWritesScore(Config([], true, -1000), ev, true, writeOk);
    DefaultScoreStrings();
    EndsWithAppend(if writeOk then "" else FailLine("bar", "-64444"), SetLine("bar", -1000));
  }

  lemma MatchingProcess(ev: Event, writeOk: bool)
    requires TestRunningEvent(ev, "bar", "group1")
    ensures Adjusted(Handle(Config(["bar"], false, -1000), ev, true, writeOk),
                     "-1000\n", "set oom_score_adj for process bar to -1000\n")
  {
    SelectedWritesScore(Config(["bar"], false, -1000), ev, true, writeOk);
    DefaultScoreStrings();
    EndsWithAppend(if writeOk then "" else FailLine("bar", "-64444"), SetLine("bar", -1000));
  }

  lemma MatchingGroupProcess(ev: Event, writeOk: bool)
    requires TestRunningEvent(ev, "bar", "group1")
    ensures Adjusted(Handle(Config(["group1:bar"], false, -1000), ev, true, writeOk),
                     "-1000\n", "set oom_score_adj for process bar to -1000\n")
  {
    assert QualifiedName("group1", "bar") == "group1:bar";
    SelectedWritesScore(Config(["group1:bar"], false, -1000), ev, true, writeOk);
    DefaultScoreStrings();
    EndsWithAppend(if writeOk then "" else FailLine("bar", "-64444"), SetLine("bar", -1000));
  }

  /** With the write failing, as it does for pid -64444, the failure line comes first. */
  lemma CustomScore(ev: Event)
    requires TestRunningEvent(ev, "foo", "group1")
    ensures var r := Handle(Config(["foo"], false, -100), ev, true, false);
      && r.Success?
      && Acks(r.value) == 1
      && Writes(r.value) == [WriteFile("/proc/-64444/oom_score_adj", "-100\n")]
      && Stderr(r.value) == "could not set oom_score_adj for process foo:-64444\n"
                          + "set oom_score_adj for process foo to -100\n"
  {
    SelectedWritesScore(Config(["foo"], false, -100), ev, true, false);
    CustomScoreStrings();
  }

  /** The strings of the custom-score case: process "foo", pid -64444, score -100. */
  lemma CustomScoreStrings()
    ensures ProcPath("-64444") == "/proc/-64444/oom_score_adj"
    ensures ScoreContent(-100) == "-100\n"
    ensures FailLine("foo", "-64444") == "could not set oom_score_adj for process foo:-64444\n"
    ensures SetLine("foo", -100) == "set oom_score_adj for process foo to -100\n"
  {
    assert Decimal.NatToString(100) == "100";
  }

  /**
    A process whose own name contains ':' is matched by the bare-name test: the
    entry "group1:bar" selects a process called "group1:bar" in any group.
   */
  lemma ColonInProcessNameMatchesBare()
    ensures Selected(Config(["group1:bar"], false, -1000), "group1:bar", "group2")
  {
  }

  /**
    The sample invocation of the usage text, `-p program1 -p group1:program2 -s -500`,
    with `int()` restricted to plain decimal strings.
   */
  lemma SampleInvocation()
    ensures Startup.Main([Startup.Opt("-p", "program1"), Startup.Opt("-p", "group1:program2"), Startup.Opt("-s", "-500")],
                         Decimal.ParseDecimal, true)
         == Startup.Listen(Config(["program1", "group1:program2"], false, -500))
  {
    assert Decimal.ParseDecimal("-500") == Some(-500) by {
      assert "-500"[1..] == "500";
      assert Decimal.ParseDigits("500") == 500 by {
        assert "500"[..2] == "50" && "50"[..1] == "5" && "5"[..0] == "";
      }
    }
  }
}

=== FILE: sequences.dfy ===
/** Facts about sequences that the proofs of the other modules use as stepping stones. */
module Sequences {
  /** Concatenation regroups freely; stated once so that proofs can name the step instead of rediscovering it. */
  lemma AppendAssociates<T>(a: seq<T>, b: seq<T>, c: seq<T>)
    ensures a + (b + c) == (a + b) + c
  {
  }
}

=== FILE: startup.dfy ===
/**
  Startup of the listener: folding the already-parsed command-line options into
  the listener's configuration, then refusing to start outside supervisor.

  Options arrive as (name, value) pairs in command-line order, as `getopt`
  returns them. Converting the value of a score option is Python's `int()`; it
  is a parameter here (`toInt`), returning `None` where `int()` raises.
 */
module Startup {
  import opened Wrappers
  import Listener
  import Sequences

  /** One parsed option: its spelling (`-p`, `--program`, ...) and its value ("" for flags). */
  datatype Opt = Opt(name: string, value: string)

  /** Where the option loop ends: with a configuration, at a help request, or at a score `int()` rejects. */
  datatype Folded = Parsed(cfg: Listener.Config) | HelpRequested | BadScore(value: string)

  /** What `main` does: print usage and exit 0, crash on a bad score, refuse outside supervisor, or run the listener. */
  datatype Launch = ShowUsage | ScoreError(value: string) | NotUnderSupervisor(diag: string) | Listen(cfg: Listener.Config)

  const HelpNames := {"-h", "--help"}
  const ProgramNames := {"-p", "--program"}
  const AnyNames := {"-a", "--any"}
  const ScoreNames := {"-s", "--score"}

  const DefaultScore := -1000

  /** The configuration before any option is applied. */
  const Defaults := Listener.Config([], false, DefaultScore)

  const NotUnderSupervisorLine := "oom_score_adj must be run as a supervisor event listener\n"

  /**
    The option loop of `main`, continuing from the configuration `acc`. A help
    option stops the loop at once; otherwise each option is tested against each
    spelling group in turn, so an unknown option is skipped.
   */
  function FoldOptions(acc: Listener.Config, opts: seq<Opt>, toInt: string -> Option<int>): Folded
    decreases |opts|
  {
    if |opts| == 0 then
      Parsed(acc)
    else if opts[0].name in HelpNames then
      HelpRequested
    else if opts[0].name in ScoreNames && toInt(opts[0].value).None? then
      BadScore(opts[0].value)
    else
      FoldOptions(StepConfig(acc, opts[0], toInt), opts[1..], toInt)
  }

  /**
    One option applied to the configuration. The spelling groups are tested one
    after the other; being disjoint, at most one applies, and an unknown option
    changes nothing.
   */
  function StepConfig(acc: Listener.Config, o: Opt, toInt: string -> Option<int>): Listener.Config
    requires o.name in ScoreNames ==> toInt(o.value).Some?
  {
    var withProgram := if o.name in ProgramNames then acc.(programs := acc.programs + [o.value]) else acc;
    var withAny := if o.name in AnyNames then withProgram.(any := true) else withProgram;
    if o.name in ScoreNames then withAny.(score := toInt(o.value).value) else withAny
  }

  /**
    `main` after `getopt`: fold the options from the defaults, then start the
    listener only when the supervisor's server URL is in the environment.
   */
  function Main(opts: seq<Opt>, toInt: string -> Option<int>, underSupervisor: bool): (r: Launch)
    ensures r.Listen? ==> underSupervisor
    ensures r.NotUnderSupervisor? ==> !underSupervisor && r.diag == NotUnderSupervisorLine
  {
    match FoldOptions(Defaults, opts, toInt)
    case HelpRequested => ShowUsage
    case BadScore(v) => ScoreError(v)
    case Parsed(cfg) =>
      if underSupervisor then Listen(cfg) else NotUnderSupervisor(NotUnderSupervisorLine)
  }

  // ---------------------------------------------------------------------------
  // Reference definitions: what each option contributes, read off the whole list

  /** The values of the program options, in command-line order. */
  function ProgramValues(opts: seq<Opt>): seq<string>
    decreases |opts|
  {
    if |opts| == 0 then []
    else (if opts[0].name in ProgramNames then [opts[0].value] else []) + ProgramValues(opts[1..])
  }

  /** Whether some option is an any-flag. */
  predicate AnyGiven(opts: seq<Opt>) {
    exists i | 0 <= i < |opts| :: opts[i].name in AnyNames
  }

  /** The value of the last score option, if there is one. */
  function LastScoreValue(opts: seq<Opt>): Option<string>
    decreases |opts|
  {
    if |opts| == 0 then None
    else if opts[|opts| - 1].name in ScoreNames then Some(opts[|opts| - 1].value)
    else LastScoreValue(opts[..|opts| - 1])
  }

  /** No option asks for help. */
  predicate NoHelp(opts: seq<Opt>) {
    forall i | 0 <= i < |opts| :: opts[i].name !in HelpNames
  }

  /** `int()` accepts the value of every score option. */
  predicate ScoresConvert(opts: seq<Opt>, toInt: string -> Option<int>) {
    forall i | 0 <= i < |opts| :: opts[i].name in ScoreNames ==> toInt(opts[i].value).Some?
  }

  // ---------------------------------------------------------------------------
  // Properties of the fold

  /** The loop completes exactly when no option asks for help and every score converts. */
  lemma {:induction false} FoldCompletes(acc: Listener.Config, opts: seq<Opt>, toInt: string -> Option<int>)
    ensures FoldOptions(acc, opts, toInt).Parsed? <==> NoHelp(opts) && ScoresConvert(opts, toInt)
    decreases |opts|
  {
    if |opts| > 0 {
      var o := opts[0];
      if o.name !in HelpNames && (o.name in ScoreNames ==> toInt(o.value).Some?) {
        FoldCompletes(StepConfig(acc, o, toInt), opts[1..], toInt);
        assert FoldOptions(acc, opts, toInt) == FoldOptions(StepConfig(acc, o, toInt), opts[1..], toInt);
      }
      assert forall i | 1 <= i < |opts| :: opts[i] == opts[1..][i - 1];
    }
  }

  /** A completed loop appends the value of every program option to the list, in command-line order. */
  lemma {:induction false} FoldAppendsPrograms(acc: Listener.Config, opts: seq<Opt>, toInt: string -> Option<int>)
    requires FoldOptions(acc, opts, toInt).Parsed?
    ensures FoldOptions(acc, opts, toInt).cfg.programs == acc.programs + ProgramValues(opts)
    decreases |opts|
  {
    if |opts| == 0 {
      assert acc.programs + [] == acc.programs;
    } else {
      var o := opts[0];
      var next := StepConfig(acc, o, toInt);
      var mine := if o.name in ProgramNames then [o.value] else [];
      assert next.programs == acc.programs + mine;
      assert FoldOptions(acc, opts, toInt) == FoldOptions(next, opts[1..], toInt);
      assert ProgramValues(opts) == mine + ProgramValues(opts[1..]);
      FoldAppendsPrograms(next, opts[1..], toInt);
      Sequences.AppendAssociates(acc.programs, mine, ProgramValues(opts[1..]));
    }
  }

  /** A completed loop sets the any-flag exactly when some option asks for it (or it was already set). */
  lemma {:induction false} FoldSetsAny(acc: Listener.Config, opts: seq<Opt>, toInt: string -> Option<int>)
    requires FoldOptions(acc, opts, toInt).Parsed?
    ensures FoldOptions(acc, opts, toInt).cfg.any == (acc.any || AnyGiven(opts))
    decreases |opts|
  {
    if |opts| > 0 {
      var o := opts[0];
      FoldSetsAny(StepConfig(acc, o, toInt), opts[1..], toInt);
      assert AnyGiven(opts) <==> o.name in AnyNames || AnyGiven(opts[1..]) by {
        if AnyGiven(opts[1..]) {
          var i :| 0 <= i < |opts[1..]| && opts[1..][i].name in AnyNames;
          assert opts[i + 1] == opts[1..][i];
        }
        if AnyGiven(opts) {
          var i :| 0 <= i < |opts| && opts[i].name in AnyNames;
          if i > 0 { assert opts[1..][i - 1] == opts[i]; }
        }
      }
    }
  }

  /** A completed loop keeps the score of the last score option, or the starting score when there is none. */
  lemma {:induction false} FoldKeepsLastScore(acc: Listener.Config, opts: seq<Opt>, toInt: string -> Option<int>)
    requires FoldOptions(acc, opts, toInt).Parsed?
    ensures var last := LastScoreValue(opts);
      && (last.None? ==> FoldOptions(acc, opts, toInt).cfg.score == acc.score)
      && (last.Some? ==> toInt(last.value) == Some(FoldOptions(acc, opts, toInt).cfg.score))
    decreases |opts|
  {
    if |opts| > 0 {
      var o := opts[0];
      FoldKeepsLastScore(StepConfig(acc, o, toInt), opts[1..], toInt);
      LastScoreValueCons(o, opts[1..]);
      assert opts == [o] + opts[1..];
    }
  }

  /** The last score option of `[o] + rest` is the last one of `rest`, or `o` when `rest` has none. */
  lemma {:induction false} LastScoreValueCons(o: Opt, rest: seq<Opt>)
    ensures LastScoreValue([o] + rest)
         == match LastScoreValue(rest)
            case Some(v) => Some(v)
            case None => if o.name in ScoreNames then Some(o.value) else None
    decreases |rest|
  {
    var all := [o] + rest;
    if |rest| > 0 {
      assert all[|all| - 1] == rest[|rest| - 1];
      assert all[..|all| - 1] == [o] + rest[..|rest| - 1];
      LastScoreValueCons(o, rest[..|rest| - 1]);
    } else {
      assert all == [o];
      assert all[..0] == [];
    }
  }

  /** Without options the listener starts with an empty selection list, no any-flag and the score -1000. */
  lemma MainDefaults(toInt: string -> Option<int>)
    ensures Main([], toInt, true) == Listen(Listener.Config([], false, -1000))
    ensures Main([], toInt, false) == NotUnderSupervisor(NotUnderSupervisorLine)
  {
  }

  /**
    When the option loop completes, `main` starts the listener under supervisor
    with the configuration read off the whole command line: every program value
    in order, the any-flag exactly when `-a`/`--any` occurs, and the score of the
    last score option or -1000. Outside supervisor it refuses with its one line.
   */
  lemma MainStartsFolded(opts: seq<Opt>, toInt: string -> Option<int>)
    requires NoHelp(opts) && ScoresConvert(opts, toInt)
    ensures var r := Main(opts, toInt, true);
      && r.Listen?
      && r.cfg.programs == ProgramValues(opts)
      && r.cfg.any == AnyGiven(opts)
      && (LastScoreValue(opts).None? ==> r.cfg.score == DefaultScore)
      && (LastScoreValue(opts).Some? ==> toInt(LastScoreValue(opts).value) == Some(r.cfg.score))
    ensures Main(opts, toInt, false) == NotUnderSupervisor(NotUnderSupervisorLine)
  {
    FoldCompletes(Defaults, opts, toInt);
    FoldAppendsPrograms(Defaults, opts, toInt);
    FoldSetsAny(Defaults, opts, toInt);
    FoldKeepsLastScore(Defaults, opts, toInt);
    assert [] + ProgramValues(opts) == ProgramValues(opts);
  }

  /**
    The first help option ends the loop with a help request, provided every
    score option before it converts; the options after it are never looked at.
   */
  lemma {:induction false} FoldHelpAt(acc: Listener.Config, opts: seq<Opt>, toInt: string -> Option<int>, k: nat)
    requires k < |opts| && opts[k].name in HelpNames
    requires forall j | 0 <= j < k :: opts[j].name !in HelpNames
    requires ScoresConvert(opts[..k], toInt)
    ensures FoldOptions(acc, opts, toInt) == HelpRequested
    decreases k
  {
    if k > 0 {
      var rest := opts[1..];
      var before, restBefore := opts[..k], rest[..k - 1];
      assert before[0] == opts[0];
      assert forall j | 0 <= j < k - 1 :: restBefore[j] == before[j + 1];
      assert forall j | 0 <= j < k - 1 :: rest[j] == opts[j + 1];
      FoldHelpAt(StepConfig(acc, opts[0], toInt), rest, toInt, k - 1);
    }
  }

  /**
    A help request is honoured before any later option and before the
    environment is looked at: `main` shows usage whatever follows the first
    help option and whether or not it runs under supervisor.
   */
  lemma HelpBeforeEnvironment(opts: seq<Opt>, toInt: string -> Option<int>, underSupervisor: bool, k: nat)
    requires k < |opts| && opts[k].name in HelpNames
    requires forall j | 0 <= j < k :: opts[j].name !in HelpNames
    requires ScoresConvert(opts[..k], toInt)
    ensures Main(opts, toInt, underSupervisor) == ShowUsage
  {
    FoldHelpAt(Defaults, opts, toInt, k);
  }

  /**
    The first score value `int()` rejects ends the loop with that value, provided
    no help option comes before it and every earlier score converts; the options
    after it are never looked at.
   */
  lemma {:induction false} FoldBadScoreAt(acc: Listener.Config, opts: seq<Opt>, toInt: string -> Option<int>, k: nat)
    requires k < |opts| && opts[k].name in ScoreNames && toInt(opts[k].value).None?
    requires forall j | 0 <= j < k :: opts[j].name !in HelpNames
    requires ScoresConvert(opts[..k], toInt)
    ensures FoldOptions(acc, opts, toInt) == BadScore(opts[k].value)
    decreases k
  {
    if k > 0 {
      var rest := opts[1..];
      var before, restBefore := opts[..k], rest[..k - 1];
      assert before[0] == opts[0];
      assert forall j | 0 <= j < k - 1 :: restBefore[j] == before[j + 1];
      assert forall j | 0 <= j < k - 1 :: rest[j] == opts[j + 1];
      FoldBadScoreAt(StepConfig(acc, opts[0], toInt), rest, toInt, k - 1);
    }
  }

  /**
    `main` starts the listener exactly when it runs under supervisor, no option
    asks for help and `int()` accepts every score value.
   */
  lemma MainListensIff(opts: seq<Opt>, toInt: string -> Option<int>, underSupervisor: bool)
    ensures Main(opts, toInt, underSupervisor).Listen? <==> underSupervisor && NoHelp(opts) && ScoresConvert(opts, toInt)
  {
    FoldCompletes(Defaults, opts, toInt);
  }

  /** A score value `int()` rejects ends `main` with that value, whatever the environment: no listener starts. */
  lemma BadScoreEndsMain(opts: seq<Opt>, toInt: string -> Option<int>, underSupervisor: bool, k: nat)
    requires k < |opts| && opts[k].name in ScoreNames && toInt(opts[k].value).None?
    requires forall j | 0 <= j < k :: opts[j].name !in HelpNames
    requires ScoresConvert(opts[..k], toInt)
    ensures Main(opts, toInt, underSupervisor) == ScoreError(opts[k].value)
  {
    FoldBadScoreAt(Defaults, opts, toInt, k);
  }
}

=== FILE: wrappers.dfy ===
/** Failure-compatible result types shared by the listener and its startup code. */
module Wrappers {

  /** An optional value: `None` when absent. */
  datatype Option<+T> = None | Some(value: T)

  /** The outcome of a step that may raise: `Failure` carries what went wrong. */
  datatype Result<+R, +E> = Success(value: R) | Failure(error: E)
}
